=== FILE: README.md ===
# DataRunner: NTFS data-run decoding, modelled in Dafny

DataRunner reads the data runs of a non-resident NTFS attribute. It takes them
as hexadecimal text, either spaced (`21 18 34 56`) or contiguous (`21183456`),
and turns them into a list of runs, each with a length and a signed offset
measured in clusters. It then turns every run into a byte range on the volume.
This project models the pure core of `DataRunner.py` and proves properties of
that model:

- `preprocess_hex_string` and the `split(" ")` that follows it: module `Tokens`.
- `correct_signed_offset`: module `SignedOffset`. It is built on module
  `Numerals`, which models Python's `int(_, base)`, `bin` and `format(_, 'X')`.
- `extract_and_correct_runs_v3`: module `Decoder`. Module `Encoder` is its
  inverse. It writes runs as byte tokens so that the decoder can be proved to
  be its left inverse.
- `calculate_start_end_points`: module `Resolver`. The cluster size is a
  parameter `c`. The tool uses 4096 unless the `-c` option gives another.
- Worked inputs: module `Scenarios`. It decodes seven texts as the code
  does, failures included. It resolves two run lists into byte ranges, and
  it takes the run decoded from `21 18 34 56` all the way to its byte
  range.

The decoder's failures are modelled as values, not hidden behind
preconditions. `Results.Error` has three cases:

- `IndexOutOfRange`: an `IndexError` from `header[0]` or `header[1]`.
- `EmptyLiteral`: `int('', 16)`.
- `InvalidLiteral`: `int` on a non-hex digit.

Any of these aborts the whole decoding, as the uncaught exception does.

Things the model follows on purpose:

- The header's first hex digit is the offset field's width, and its second
  digit is the length field's width. This is the order the code uses
  (`DataRunner.py:25-26`), and the model follows it.
- The loop has no terminator. A `00` header is decoded like any other
  header: its length field has width zero and reads `int('', 16)`, which
  fails. So a run list that still carries its `00` end marker does not
  decode, and `Scenarios.TerminatorFails` shows this.
- A header token is read only through its first two characters, and any
  later characters are ignored. So the header token `21G` gives the same
  widths as `21`, as `Decoder.ParseHeaderSpec` states.
- Slices clip at the end of the list. An offset field that the header says
  is wider than what is left is read at the width it actually has.
- The decoder reads offsets with `SignedOffset.SignedField`, the arithmetic
  reading of a two's-complement field. `SignedOffset.CorrectSignedOffset`
  models the code's route through binary text and zero-filling, and it is
  proved equal to `SignedField` on every input, failures included.
- The sign bit of an offset sits at four bits per hex digit actually
  joined, not at eight bits per byte the header announces. The two differ
  when the field is cut short at the end of the list, or when contiguous
  text of odd length leaves a one-character last token:
  `Scenarios.ShortOffset` reads the offset `F` as -1.

## Model

| member | source | states |
|---|---|---|
| Tokens.PreprocessIdempotent | DataRunner.py:5-8 | Text that contains a space passes through unchanged, and pre-processing already pre-processed text changes nothing. |
| Tokens.ContiguousTokens | DataRunner.py:6-7 | Text without spaces is tokenised into its two-character chunks in order, which concatenate back to it. The empty text becomes the single empty token. |
| Tokens.ChunksPartition | DataRunner.py:7 | The chunks of a string concatenate back to it. Every chunk has one or two characters, and only the last can be short. |
| Tokens.ChunksOfPairs | DataRunner.py:7 | Cutting the concatenation of two-character tokens into chunks gives back exactly those tokens. |
| Tokens.SpacedTokens | DataRunner.py:18-19 | Text with a space is split at each space into at least two tokens, and the tokens joined by spaces give back the text. |
| Tokens.SplitJoin | DataRunner.py:19 | Splitting at spaces undoes joining with spaces, for any non-empty list of space-free pieces. |
| Tokens.JoinSplit | DataRunner.py:19 | Joining the pieces of a split with spaces gives back the original text, empty pieces included. |
| Tokens.Slice | DataRunner.py:28 | A Python slice clips both bounds at the list's end. Its length is what remains between the clipped bounds, and element k is element lo+k of the list. It is empty when it starts past the end. |
| SignedOffset.CorrectSignedOffset | DataRunner.py:10-15 | Empty text fails as `int('', 16)` does, and a non-hex digit fails as an invalid literal. Otherwise the result is the two's-complement value of the digits at four bits per digit. It equals the arithmetic reading `SignedField` on every input. |
| SignedOffset.BinaryTwosComplement | DataRunner.py:11-15 | The zero-filled binary text of a w-bit pattern, negated from 2^w when its first character is '1', is the two's-complement reading of that pattern. |
| SignedOffset.SignBit | DataRunner.py:11-12 | The binary text of v, zero-filled to w characters, is exactly w binary digits worth v. It starts with '1' exactly when v has bit w-1 set. |
| SignedOffset.ZFill | DataRunner.py:11 | `zfill` keeps the string at the end of its result and puts only zeros in front, up to the requested width. It never cuts the string short. |
| SignedOffset.ZFillValue | DataRunner.py:11 | Zero-filling a numeral gives a numeral with the same value. |
| SignedOffset.SignedValueRange | DataRunner.py:12-15 | The reading of a w-bit pattern lies in [-2^(w-1), 2^(w-1)) and is congruent to the pattern modulo 2^w. It is negative exactly when the top bit is set. |
| SignedOffset.SignedValueOfResidue | DataRunner.py:12-15 | Every number in the signed w-bit range reads back as itself from its residue modulo 2^w. This is the inverse of the reading. |
| Numerals.ToDigitsValue | DataRunner.py:11 | The digits `bin` or `format` produce read back to the number. |
| Numerals.FormatHex | DataRunner.py:67-68 | `format(n, 'X')` is upper-case hexadecimal that reads back to n. A negative n gets a minus sign before the digits of -n, and there are no leading zeros. |
| Decoder.ParseHeaderSpec | DataRunner.py:24-26 | A header succeeds exactly when its first two characters are hex digits; later characters are ignored. The first digit gives the offset width and the second the length width. An empty token is an index error. A bad first digit is an invalid literal even when the second character is missing, and a lone good digit is an index error. |
| Decoder.ReadLengthSpec | DataRunner.py:28-29 | A zero-width length field, or one starting past the last token, is the empty literal. A field whose text holds a character that is not a hex digit is an invalid literal. A field of byte tokens reads as their little-endian value. |
| Decoder.ReadOffsetSpec | DataRunner.py:31-32 | A zero-width offset is 0 and reads no token. A present field starting past the end is the empty literal, and one whose text holds a character that is not a hex digit is an invalid literal. A field of byte tokens is their little-endian value read as two's complement, at eight bits per byte actually read. |
| Decoder.FieldIsLittleEndian | DataRunner.py:28 | Reversing byte tokens and joining them gives a numeral of two digits per byte, whose value is the little-endian value of the bytes. |
| Decoder.ByteFieldValue | DataRunner.py:28-29 | A field of byte tokens, reversed and joined, is a non-empty hex numeral whose value is the little-endian value of the tokens read. |
| Decoder.ReadLengthOfBytes | DataRunner.py:28-29 | Over byte tokens, a length field reads exactly when it is non-empty and starts before the end. It then reads the little-endian value of the tokens present. |
| Decoder.ReadLengthOfText | DataRunner.py:28-29 | Over any tokens, a length field is its joined text read as one hex number. An empty text, from no tokens or only empty ones, is the empty literal, and a non-hex character is an invalid literal. |
| Decoder.ReadOffsetOfText | DataRunner.py:31-32 | Over any tokens, a present offset field is `correct_signed_offset` of its joined text. An empty text is the empty literal. A text of hex digits reads as two's complement at four bits per digit joined, so a one-character last token narrows the sign bit. |
| Decoder.ReadOffsetOfBytes | DataRunner.py:31-32 | Over byte tokens, an offset field reads exactly when it is absent or starts before the end. A present field reads as the two's-complement value of the tokens present. |
| Decoder.DecodeRun | DataRunner.py:24-33 | A successful iteration moves the cursor forward. |
| Decoder.DecodeRunAdvances | DataRunner.py:27-33 | After a successful iteration the cursor stands just past the header, the length field and the offset field the header announced. The length width is positive, so the cursor advances by at least two tokens. |
| Decoder.DecodeRunErrors | DataRunner.py:24-32 | A bad header fails with the header's own error. A zero-width length field, or one starting past the last token, fails with the empty literal. So does a present offset field starting past the last token after a good length. So does a length field, or a present offset field after a good length, whose text is empty because its tokens are. A length field, or a present offset field after a good length, whose text holds a character that is not a hex digit fails as an invalid literal. |
| Decoder.DecodeRunOfBytes | DataRunner.py:23-33 | Over byte tokens with a good header, an iteration succeeds exactly when the length width is positive, the length field starts before the end, and, if there is an offset field, it also starts before the end. |
| Decoder.DecodeRunLength | DataRunner.py:28-29 | Over byte tokens, a successful iteration's length is the little-endian value of its length field's tokens. |
| Decoder.DecodeRunSparse | DataRunner.py:31-33 | An iteration whose header gives no offset field is a sparse run with offset 0, and it reads no offset token. |
| Decoder.DecodeRunFields | DataRunner.py:27-33 | Over any tokens, a successful iteration's length is its length field's text as one hex number. Its offset, when the header gives one, is the offset field's text read as two's complement at four bits per hex digit. |
| Decoder.DecodeRunOffset | DataRunner.py:31-32 | Over byte tokens, a successful iteration's offset is the two's-complement value of the offset tokens actually present, so a field running past the end is read at its clipped width. |
| Decoder.DecodeFromBound | DataRunner.py:23-33 | Decoding from a cursor yields at most one run per two tokens remaining. |
| Decoder.Decode | DataRunner.py:17-46 | Empty text fails with an index error. A successful decoding has at most one run per two tokens. |
| Encoder.HeaderToken | DataRunner.py:24-26 | The token built from two widths is a byte token that the header parser reads back as those widths, in the code's nibble order. |
| Encoder.EncodedDecodes | DataRunner.py:23-44 | From any position, decoding the byte tokens of a list of encodable runs gives back exactly those runs. |
| Encoder.RoundTrip | DataRunner.py:17-46 | The decoder is a left inverse of the encoder on every list of encodable runs. |
| Encoder.DecodeEncodedText | DataRunner.py:17-46 | A non-empty list of encodable runs, written as spaced or contiguous text, decodes back to the same runs. |
| Resolver.ResolveAt | DataRunner.py:51-71 | The k-th entry is numbered k+1 and lies at the sum of the offsets of runs 0 to k. Its range is given by that LCN and the run's length. |
| Resolver.CalculateStartEndPoints | DataRunner.py:51-71 | The loop, with its two LCN updates (the first run sets it, later runs add to it), yields one entry per run. Entry k is numbered k+1 and lies at the sum of the offsets of runs 0 to k. It starts at c times that LCN and spans c times the run's length bytes. The result is the reference list `Resolve`. |
| Resolver.ResolveChain | DataRunner.py:57-60 | The first entry's LCN is the first offset. Every later LCN is the previous entry's LCN plus the run's offset. |
| Resolver.ResolvePrefix | DataRunner.py:54-70 | Resolving more runs leaves the entries already produced unchanged. |
| Scenarios.SpacedRun | DataRunner.py:17-46 | `21 18 34 56` and `21183456` both decode to one run of 0x18 clusters at offset 0x5634. |
| Scenarios.NegativeOffset | DataRunner.py:31-32 | `11 05 FF` decodes to one run whose offset is -1. |
| Scenarios.ShortOffset | DataRunner.py:5-33 | Contiguous `1105F` splits into `11`, `05`, `F`. The one-digit offset `F` is read at four bits, so it is -1 and not 15. |
| Scenarios.ClippedOffset | DataRunner.py:31-33 | `31 05 FF` announces three offset bytes but has one. The offset is read from that one byte as -1. |
| Scenarios.SparseRun | DataRunner.py:32 | `01 05` decodes to a sparse run with offset 0. |
| Scenarios.TerminatorFails | DataRunner.py:23-29 | `21 18 34 56 00 00` fails with the empty literal, because the `00` header is read as a run with an empty length field. |
| Scenarios.SpacedRunExtent | DataRunner.py:61-69 | With 4096-byte clusters, the run of `21 18 34 56` covers bytes 90390528 to 90488831, and the entry's two hex fields read back to those bounds. |
| Scenarios.SpacedRunResolved | DataRunner.py:17-71 | The run decoded from `21 18 34 56`, resolved with 4096-byte clusters, is run 1 at LCN 22068. It covers bytes 90390528 to 90488831. |
| Scenarios.RelativeExtent | DataRunner.py:57-62 | A second run with offset -68 lies at LCN 22000, 68 clusters before the first. |

## Left out

- `reconstruct_file_from_runs` and the command-line entry point: file I/O and
  argument parsing, outside the pure core.
- The `print` calls inside the decoder (`DataRunner.py:22`, `DataRunner.py:36`):
  output only, with no effect on the result.
- `NTFS_CLUSTER_SIZE` (`DataRunner.py:49`, overwritten from the `-c` option
  at `DataRunner.py:101-102`) is not a global here. The resolver takes the
  cluster size as a parameter `c`, any integer, since the option accepts
  any `int`. The worked examples use 4096.
- Resolver.Extent stores the two decimal bounds, the run number and the LCN.
  Its hex fields are the accessors `StartHex` and `EndHex`, computed from the
  bounds with `format(_, 'X')` as the code computes them, rather than stored.
- Decoder.Run keeps only `length` and `offset`. The display fields of each
  run dictionary (`header`, `length_hex`, `offset_hex`) are left out; they are
  the texts the two numbers were read from.
- Numerals.ParseInt accepts exactly the ASCII hex digits in either case. Python's
  `int(_, base)` also accepts surrounding whitespace, a sign, a `0x`/`0b`
  prefix, `_` separators and non-ASCII Unicode digits. Tokens are cut at
  spaces, so only such unusual tokens would behave differently.
- Decoder.Decode states only its bounds and its failure on empty text; its
  outcome on particular inputs is stated by the decoder lemmas and the worked
  examples, and on encoded runs by Encoder.RoundTrip.
- Decoder.DecodeRun states only that the cursor moves forward; what an
  iteration reads is stated by the DecodeRun* lemmas.
- Python's unbounded integers need no wrap-around modelling: every
  quantity in the core is an unbounded `int` or `nat` in the model as well.

=== FILE: decoder.dfy ===
/** `extract_and_correct_runs_v3`: the data-run decoder.

    A cursor walks the token list. At each run the header token's first
    character gives the offset field's width and its second the length
    field's width, both in tokens. The length is the little-endian unsigned
    value of the next `lengthSize` tokens, and the offset is the
    two's-complement value of the following `offsetSize` tokens. A zero-width
    offset field is the sparse-run offset 0. Slices are clipped at the end of
    the list, and there is no terminator: decoding stops only when the cursor
    passes the last token.
 */
module Decoder {
  import opened Results
  import opened Numerals
  import opened Tokens
  import opened SignedOffset

  /** Field widths, in tokens, read from a run's header token. */
  datatype Header = Header(offsetSize: nat, lengthSize: nat)

  /** One decoded run: its length in clusters and its offset, in clusters,
      from the previous run's start. */
  datatype Run = Run(length: nat, offset: int)

  /** A decoded run and where the cursor stands after it. */
  datatype Step = Step(run: Run, next: nat)

  /** A two-digit hexadecimal token, one byte of the encoding. */
  predicate IsByteToken(t: string) {
    |t| == 2 && IsHexDigit(t[0]) && IsHexDigit(t[1])
  }

  /** The byte a token stands for, high digit first. */
  function ByteValue(t: string): (b: nat)
    requires IsByteToken(t)
  {
    DigitValue(t[0]) * 16 + DigitValue(t[1])
  }

  /** A byte token is the two-digit numeral of its byte. */
  lemma ByteTokenValue(t: string)
    requires IsByteToken(t)
    ensures IsNumeral(t, 16) && Value(t, 16) == ByteValue(t) < 256
  {
    assert t[..1] == [t[0]];
    ValueOfDigit(t[0], 16);
  }

  predicate AreByteTokens(ts: seq<string>) {
    forall k | 0 <= k < |ts| :: IsByteToken(ts[k])
  }

  /** The little-endian value of a sequence of byte tokens: byte `j`
      weighs 256^j. */
  function LittleEndian(ts: seq<string>): (v: nat)
    requires AreByteTokens(ts)
  {
    if ts == [] then 0 else ByteValue(ts[0]) + 256 * LittleEndian(ts[1..])
  }

  /** The header token read one hexadecimal character at a time, first
      character first: the first character is the offset field's width and
      the second the length field's. */
  function ParseHeader(h: string): Result<Header> {
    if |h| < 1 then Err(IndexOutOfRange)
    else
      var offsetSize := ParseInt(h[..1], 16);
      if offsetSize.Err? then Err(offsetSize.error)
      else if |h| < 2 then Err(IndexOutOfRange)
      else
        var lengthSize := ParseInt(h[1..2], 16);
        if lengthSize.Err? then Err(lengthSize.error)
        else Ok(Header(offsetSize.value, lengthSize.value))
  }

  /** The header's failures are Python's: no character is an `IndexError`
      before anything is parsed, a bad first digit fails before the missing
      second character is noticed; a good header is the two-digit number
      `offsetSize * 16 + lengthSize`, the offset width in the high nibble. */
  lemma {:induction false} ParseHeaderSpec(h: string)
    ensures ParseHeader(h).Ok? <==> |h| >= 2 && IsHexDigit(h[0]) && IsHexDigit(h[1])
    ensures |h| == 0 ==> ParseHeader(h) == Err(IndexOutOfRange)
    ensures |h| >= 1 && !IsHexDigit(h[0]) ==> ParseHeader(h) == Err(InvalidLiteral)
    ensures |h| == 1 && IsHexDigit(h[0]) ==> ParseHeader(h) == Err(IndexOutOfRange)
    ensures |h| >= 2 && IsHexDigit(h[0]) && !IsHexDigit(h[1]) ==> ParseHeader(h) == Err(InvalidLiteral)
    ensures ParseHeader(h).Ok? ==> ParseHeader(h).value == Header(DigitValue(h[0]), DigitValue(h[1]))
    ensures ParseHeader(h).Ok? ==>
      var hd := ParseHeader(h).value;
      && hd.offsetSize < 16 && hd.lengthSize < 16
      && hd.offsetSize * 16 + hd.lengthSize == Value(h[..2], 16)
  {
    if |h| >= 1 {
      assert h[..1] == [h[0]];
      if IsHexDigit(h[0]) {
        ValueOfDigit(h[0], 16);
      }
    }
    if |h| >= 2 && IsHexDigit(h[0]) && IsHexDigit(h[1]) {
      assert h[1..2] == [h[1]];
      ValueOfDigit(h[1], 16);
      assert h[..2][..1] == h[..1];
    }
  }

  /** The text of a field: its `width` tokens from `at` on (fewer when the
      list ends first), concatenated last token first. */
  function Field(parts: seq<string>, at: nat, width: nat): string {
    Concat(Reverse(Slice(parts, at, at + width)))
  }

  /** One iteration of the decoding loop, with the cursor at `i`: the
      header token, the length field after it, then the offset field. */
  function DecodeRun(parts: seq<string>, i: nat): (r: Result<Step>)
    requires i < |parts|
    ensures r.Ok? ==> r.value.next > i
  {
    var header := ParseHeader(parts[i]);
    if header.Err? then Err(header.error)
    else
      var hd := header.value;
      var length := ReadLength(parts, i + 1, hd.lengthSize);
      if length.Err? then Err(length.error)
      else
        var offsetAt := i + 1 + hd.lengthSize;
        var offset := ReadOffset(parts, offsetAt, hd.offsetSize);
        if offset.Err? then Err(offset.error)
        else Ok(Step(Run(length.value, offset.value), offsetAt + hd.offsetSize))
  }

  /** The tokens `parts[lo:hi]`, clipped at the end of the list, are at
      least one byte token. */
  predicate IsByteField(parts: seq<string>, lo: nat, hi: nat)
    requires lo <= hi
  {
    var bytes := Slice(parts, lo, hi);
    |bytes| >= 1 && AreByteTokens(bytes)
  }

  /** The length field: the field's text read as one hexadecimal number. */
  function ReadLength(parts: seq<string>, at: nat, width: nat): Result<nat> {
    ParseInt(Field(parts, at, width), 16)
  }

  /** A length field with no tokens is the empty literal; one whose text
      holds a character that is not a hex digit is an invalid literal; a
      field of byte tokens is read as their little-endian value. */
  lemma {:induction false} ReadLengthSpec(parts: seq<string>, at: nat, width: nat)
    ensures width == 0 || at >= |parts| ==> ReadLength(parts, at, width) == Err(EmptyLiteral)
    ensures var f := Field(parts, at, width);
      f != [] && !IsNumeral(f, 16) ==> ReadLength(parts, at, width) == Err(InvalidLiteral)
    ensures IsByteField(parts, at, at + width) ==>
      ReadLength(parts, at, width) == Ok(LittleEndian(Slice(parts, at, at + width)))
  {
    if IsByteField(parts, at, at + width) {
      ByteFieldValue(parts, at, width);
    } else if width == 0 || at >= |parts| {
      assert Reverse(Slice(parts, at, at + width)) == [];
    }
  }

  /** The offset field: zero width is the sparse-run offset 0 and reads no
      token; otherwise `correct_signed_offset` of the field, read here as
      `SignedField`, which it equals. */
  function ReadOffset(parts: seq<string>, at: nat, width: nat): Result<int> {
    if width > 0 then SignedField(Field(parts, at, width)) else Ok(0)
  }

  /** A zero-width offset is 0; a non-empty offset field with no tokens is
      the empty literal, and one whose text holds a character that is not a
      hex digit is an invalid literal; a field of byte tokens is their
      little-endian value read as a two's-complement number of eight bits
      per byte actually read. */
  lemma {:induction false} ReadOffsetSpec(parts: seq<string>, at: nat, width: nat)
    ensures width == 0 ==> ReadOffset(parts, at, width) == Ok(0)
    ensures width > 0 && at >= |parts| ==> ReadOffset(parts, at, width) == Err(EmptyLiteral)
    ensures var f := Field(parts, at, width);
      width > 0 && f != [] && !IsNumeral(f, 16) ==> ReadOffset(parts, at, width) == Err(InvalidLiteral)
    ensures width > 0 && IsByteField(parts, at, at + width) ==>
      var bytes := Slice(parts, at, at + width);
      ReadOffset(parts, at, width) == Ok(SignedValue(LittleEndian(bytes), 8 * |bytes|))
  {
    if width > 0 {
      if IsByteField(parts, at, at + width) {
        ByteFieldValue(parts, at, width);
      } else if at >= |parts| {
        assert Reverse(Slice(parts, at, at + width)) == [];
      }
    }
  }

  /** Over any tokens, a length field is its text read as one hexadecimal
      number: an empty text, from no tokens or only empty ones (a doubled or
      trailing space), is the empty literal, and a character that is not a
      hex digit is an invalid literal. */
  lemma {:induction false} ReadLengthOfText(parts: seq<string>, at: nat, width: nat)
    ensures var f := Field(parts, at, width);
      f == [] ==> ReadLength(parts, at, width) == Err(EmptyLiteral)
    ensures var f := Field(parts, at, width);
      f != [] && !IsNumeral(f, 16) ==> ReadLength(parts, at, width) == Err(InvalidLiteral)
    ensures var f := Field(parts, at, width);
      f != [] && IsNumeral(f, 16) ==> ReadLength(parts, at, width) == Ok(Value(f, 16))
  {
  }

  /** Over any tokens, a present offset field is what
      `correct_signed_offset` makes of its text: an empty text is the empty
      literal, and any other text of hex digits is a two's-complement number
      of four bits per hex digit joined, so a one-character last token gives
      a narrower sign bit than a full byte would. */
  lemma {:induction false} ReadOffsetOfText(parts: seq<string>, at: nat, width: nat)
    requires width > 0
    ensures ReadOffset(parts, at, width) == CorrectSignedOffset(Field(parts, at, width))
    ensures Field(parts, at, width) == [] ==> ReadOffset(parts, at, width) == Err(EmptyLiteral)
    ensures var f := Field(parts, at, width);
      f != [] && IsNumeral(f, 16) ==> ReadOffset(parts, at, width) == Ok(SignedValue(Value(f, 16), 4 * |f|))
  {
  }

  /** The decoding loop from cursor `i` on: any failure aborts the whole
      decoding, as the uncaught exception does. */
  function DecodeFrom(parts: seq<string>, i: nat): Result<seq<Run>>
    decreases if i < |parts| then |parts| - i else 0
  {
    if i >= |parts| then Ok([])
    else
      var step := DecodeRun(parts, i);
      if step.Err? then Err(step.error)
      else
        var rest := DecodeFrom(parts, step.value.next);
        if rest.Err? then rest
        else Ok([step.value.run] + rest.value)
  }

  /** There is at most one run per two tokens from the cursor on: each run
      reads its header and at least one length token. */
  lemma {:induction false} DecodeFromBound(parts: seq<string>, i: nat)
    ensures DecodeFrom(parts, i).Ok? ==> |DecodeFrom(parts, i).value| <= if i < |parts| then (|parts| - i) / 2 else 0
    decreases if i < |parts| then |parts| - i else 0
  {
    if i < |parts| && DecodeRun(parts, i).Ok? {
      DecodeRunAdvances(parts, i);
      DecodeFromBound(parts, DecodeRun(parts, i).value.next);
    }
  }

  /** The decoder as a whole: pre-process and split the text, then run the
      loop from the first token. */
  function Decode(s: string): (r: Result<seq<Run>>)
    ensures r.Ok? ==> |r.value| <= |TokensOf(s)| / 2
    ensures s == [] ==> r == Err(IndexOutOfRange)
  {
    assert s == [] ==> TokensOf(s) == [[]] by {
      if s == [] {
        ContiguousTokens(s);
      }
    }
    DecodeFromBound(TokensOf(s), 0);
    DecodeFrom(TokensOf(s), 0)
  }

  /** The loop's cursor only moves forward: a successful iteration is
      followed by decoding from just past its fields, and the runs found
      there come after the iteration's run; a failed iteration is the
      loop's failure. */
  lemma {:induction false} DecodeFromStep(parts: seq<string>, i: nat, step: Step, rest: seq<Run>)
    requires i < |parts| && DecodeRun(parts, i) == Ok(step)
    ensures step.next >= i + 2
    ensures DecodeFrom(parts, step.next) == Ok(rest) ==> DecodeFrom(parts, i) == Ok([step.run] + rest)
    ensures DecodeFrom(parts, step.next).Err? ==> DecodeFrom(parts, i) == Err(DecodeFrom(parts, step.next).error)
  {
  }

  lemma {:induction false} DecodeFromError(parts: seq<string>, i: nat)
    requires i < |parts| && DecodeRun(parts, i).Err?
    ensures DecodeFrom(parts, i) == Err(DecodeRun(parts, i).error)
  {
  }

  /** The cursor moves past the header and the two fields the header
      announces, and the length field is never empty, so each iteration
      consumes at least two tokens. */
  lemma {:induction false} DecodeRunAdvances(parts: seq<string>, i: nat)
    requires i < |parts| && DecodeRun(parts, i).Ok?
    ensures ParseHeader(parts[i]).Ok?
    ensures var hd := ParseHeader(parts[i]).value;
      && hd.lengthSize > 0
      && DecodeRun(parts, i).value.next == i + 1 + hd.lengthSize + hd.offsetSize
    ensures DecodeRun(parts, i).value.next >= i + 2
  {
    var hd := ParseHeader(parts[i]).value;
    ReadLengthSpec(parts, i + 1, hd.lengthSize);
  }

  /** How one iteration fails: a bad header raises its own error; a
      zero-width length field, or one that starts past the last token, reads
      the empty literal; so does a non-empty offset field that starts past
      the last token once the length was read. A length field, or a present
      offset field after a good length, whose text is empty because its
      tokens are (a doubled or trailing space) is the empty literal too, and
      one whose text holds a character that is not a hex digit is an invalid
      literal. */
  lemma {:induction false} DecodeRunErrors(parts: seq<string>, i: nat)
    requires i < |parts|
    ensures ParseHeader(parts[i]).Err? ==> DecodeRun(parts, i) == Err(ParseHeader(parts[i]).error)
    ensures ParseHeader(parts[i]).Ok? && (ParseHeader(parts[i]).value.lengthSize == 0 || i + 1 >= |parts|)
      ==> DecodeRun(parts, i) == Err(EmptyLiteral)
    ensures ParseHeader(parts[i]).Ok? && ReadLength(parts, i + 1, ParseHeader(parts[i]).value.lengthSize).Ok?
      && ParseHeader(parts[i]).value.offsetSize > 0
      && i + 1 + ParseHeader(parts[i]).value.lengthSize >= |parts|
      ==> DecodeRun(parts, i) == Err(EmptyLiteral)
    ensures ParseHeader(parts[i]).Ok? ==>
      var f := Field(parts, i + 1, ParseHeader(parts[i]).value.lengthSize);
      f == [] ==> DecodeRun(parts, i) == Err(EmptyLiteral)
    ensures ParseHeader(parts[i]).Ok? ==>
      var f := Field(parts, i + 1, ParseHeader(parts[i]).value.lengthSize);
      f != [] && !IsNumeral(f, 16) ==> DecodeRun(parts, i) == Err(InvalidLiteral)
    ensures ParseHeader(parts[i]).Ok? && ReadLength(parts, i + 1, ParseHeader(parts[i]).value.lengthSize).Ok? ==>
      var hd := ParseHeader(parts[i]).value;
      hd.offsetSize > 0 && Field(parts, i + 1 + hd.lengthSize, hd.offsetSize) == [] ==> DecodeRun(parts, i) == Err(EmptyLiteral)
    ensures ParseHeader(parts[i]).Ok? && ReadLength(parts, i + 1, ParseHeader(parts[i]).value.lengthSize).Ok? ==>
      var hd := ParseHeader(parts[i]).value;
      var f := Field(parts, i + 1 + hd.lengthSize, hd.offsetSize);
      hd.offsetSize > 0 && f != [] && !IsNumeral(f, 16) ==> DecodeRun(parts, i) == Err(InvalidLiteral)
  {
    if ParseHeader(parts[i]).Ok? {
      var hd := ParseHeader(parts[i]).value;
      ReadLengthSpec(parts, i + 1, hd.lengthSize);
      ReadLengthOfText(parts, i + 1, hd.lengthSize);
      ReadOffsetSpec(parts, i + 1 + hd.lengthSize, hd.offsetSize);
      if hd.offsetSize > 0 {
        ReadOffsetOfText(parts, i + 1 + hd.lengthSize, hd.offsetSize);
      }
    }
  }

  /** An iteration whose three reads succeed yields their run. */
  lemma {:induction false} DecodeRunOfReads(parts: seq<string>, i: nat, offsetSize: nat, lengthSize: nat,
                                            run: Run, next: nat)
    requires i < |parts| && ParseHeader(parts[i]) == Ok(Header(offsetSize, lengthSize))
    requires ReadLength(parts, i + 1, lengthSize) == Ok(run.length)
    requires ReadOffset(parts, i + 1 + lengthSize, offsetSize) == Ok(run.offset)
    requires next == i + 1 + lengthSize + offsetSize
    ensures DecodeRun(parts, i) == Ok(Step(run, next))
  {
  }

  /** An iteration past a good header succeeds exactly when both fields
      read. */
  lemma {:induction false} DecodeRunShape(parts: seq<string>, i: nat, hd: Header)
    requires i < |parts| && ParseHeader(parts[i]) == Ok(hd)
    ensures DecodeRun(parts, i).Ok? <==>
      ReadLength(parts, i + 1, hd.lengthSize).Ok? && ReadOffset(parts, i + 1 + hd.lengthSize, hd.offsetSize).Ok?
  {
  }

  /** A successful iteration holds what its two fields read. */
  lemma {:induction false} DecodeRunReads(parts: seq<string>, i: nat, hd: Header)
    requires i < |parts| && ParseHeader(parts[i]) == Ok(hd) && DecodeRun(parts, i).Ok?
    ensures ReadLength(parts, i + 1, hd.lengthSize) == Ok(DecodeRun(parts, i).value.run.length)
    ensures ReadOffset(parts, i + 1 + hd.lengthSize, hd.offsetSize) == Ok(DecodeRun(parts, i).value.run.offset)
  {
  }

  /** Over byte tokens, a length field reads exactly when it is not empty
      and starts before the end of the list, and it reads the little-endian
      value of the tokens that are there. */
  lemma {:induction false} ReadLengthOfBytes(parts: seq<string>, at: nat, width: nat)
    requires AreByteTokens(parts)
    ensures ReadLength(parts, at, width).Ok? <==> width > 0 && at < |parts|
    ensures width > 0 && at < |parts| ==>
      && IsByteField(parts, at, at + width)
      && ReadLength(parts, at, width) == Ok(LittleEndian(Slice(parts, at, at + width)))
  {
    ReadLengthSpec(parts, at, width);
    if width > 0 && at < |parts| {
      ByteField(parts, at, at + width);
    }
  }

  /** Over byte tokens, an offset field reads exactly when it is absent or
      starts before the end of the list; a present one reads as the
      two's-complement value of the tokens that are there. */
  lemma {:induction false} ReadOffsetOfBytes(parts: seq<string>, at: nat, width: nat)
    requires AreByteTokens(parts)
    ensures ReadOffset(parts, at, width).Ok? <==> width == 0 || at < |parts|
    ensures width > 0 && at < |parts| ==>
      var bytes := Slice(parts, at, at + width);
      && IsByteField(parts, at, at + width)
      && ReadOffset(parts, at, width) == Ok(SignedValue(LittleEndian(bytes), 8 * |bytes|))
  {
    ReadOffsetSpec(parts, at, width);
    if width > 0 && at < |parts| {
      ByteField(parts, at, at + width);
    }
  }

  /** Over byte tokens, what a present offset field reads is the
      two's-complement value of its tokens that are there. */
  lemma {:induction false} ReadOffsetValue(parts: seq<string>, at: nat, width: nat, offset: int)
    requires AreByteTokens(parts) && width > 0 && ReadOffset(parts, at, width) == Ok(offset)
    ensures var bytes := Slice(parts, at, at + width);
      && IsByteField(parts, at, at + width)
      && offset == SignedValue(LittleEndian(bytes), 8 * |bytes|)
  {
    ReadOffsetOfBytes(parts, at, width);
  }

  /** Over byte tokens, an iteration with a well-formed header succeeds
      exactly when its length field is non-empty and both fields start
      before the end of the list. */
  lemma {:induction false} DecodeRunOfBytes(parts: seq<string>, i: nat, hd: Header)
    requires i < |parts| && AreByteTokens(parts) && ParseHeader(parts[i]) == Ok(hd)
    ensures DecodeRun(parts, i).Ok? <==>
      hd.lengthSize > 0 && i + 1 < |parts| && (hd.offsetSize > 0 ==> i + 1 + hd.lengthSize < |parts|)
  {
    var mid := i + 1 + hd.lengthSize;
    assert ReadLength(parts, i + 1, hd.lengthSize).Ok? <==> hd.lengthSize > 0 && i + 1 < |parts| by {
      ReadLengthOfBytes(parts, i + 1, hd.lengthSize);
    }
    assert ReadOffset(parts, mid, hd.offsetSize).Ok? <==> hd.offsetSize == 0 || mid < |parts| by {
      ReadOffsetOfBytes(parts, mid, hd.offsetSize);
    }
    DecodeRunShape(parts, i, hd);
  }

  /** Over byte tokens, a successful iteration's length is the
      little-endian value of its length field. */
  lemma {:induction false} DecodeRunLength(parts: seq<string>, i: nat, hd: Header)
    requires i < |parts| && AreByteTokens(parts) && ParseHeader(parts[i]) == Ok(hd)
    requires DecodeRun(parts, i).Ok?
    ensures var mid := i + 1 + hd.lengthSize;
      && IsByteField(parts, i + 1, mid)
      && DecodeRun(parts, i).value.run.length == LittleEndian(Slice(parts, i + 1, mid))
  {
    DecodeRunReads(parts, i, hd);
    ReadLengthOfBytes(parts, i + 1, hd.lengthSize);
  }

  /** A successful iteration whose header gives no offset field is a sparse
      run: its offset is 0 and no offset token is read. */
  lemma {:induction false} DecodeRunSparse(parts: seq<string>, i: nat, hd: Header)
    requires i < |parts| && ParseHeader(parts[i]) == Ok(hd) && hd.offsetSize == 0
    requires DecodeRun(parts, i).Ok?
    ensures DecodeRun(parts, i).value.run.offset == 0
    ensures DecodeRun(parts, i).value.next == i + 1 + hd.lengthSize
  {
    DecodeRunReads(parts, i, hd);
  }

  /** Over byte tokens, a successful iteration with an offset field has as
      offset the two's-complement value of that field's tokens that are
      there: a field running past the end is cut short, as Python's slicing
      does, and read at the width it has. */
  lemma {:induction false} DecodeRunOffset(parts: seq<string>, i: nat, hd: Header)
    requires i < |parts| && AreByteTokens(parts) && ParseHeader(parts[i]) == Ok(hd) && hd.offsetSize > 0
    requires DecodeRun(parts, i).Ok?
    ensures var mid := i + 1 + hd.lengthSize;
      var offsetBytes := Slice(parts, mid, mid + hd.offsetSize);
      && IsByteField(parts, mid, mid + hd.offsetSize)
      && DecodeRun(parts, i).value.run.offset == SignedValue(LittleEndian(offsetBytes), 8 * |offsetBytes|)
  {
    DecodeRunReads(parts, i, hd);
    ReadOffsetValue(parts, i + 1 + hd.lengthSize, hd.offsetSize, DecodeRun(parts, i).value.run.offset);
  }

  /** Over any tokens, a successful iteration's length is its length
      field's text read as one hexadecimal number, and its offset, when the
      header gives one, is its offset field's text read as a two's-complement
      number of four bits per hex digit joined: a short last token gives a
      narrower sign bit than a full byte would. */
  lemma {:induction false} DecodeRunFields(parts: seq<string>, i: nat, hd: Header)
    requires i < |parts| && ParseHeader(parts[i]) == Ok(hd) && DecodeRun(parts, i).Ok?
    ensures var lf := Field(parts, i + 1, hd.lengthSize);
      && lf != [] && IsNumeral(lf, 16)
      && DecodeRun(parts, i).value.run.length == Value(lf, 16)
    ensures hd.offsetSize > 0 ==>
      var of := Field(parts, i + 1 + hd.lengthSize, hd.offsetSize);
      && of != [] && IsNumeral(of, 16)
      && DecodeRun(parts, i).value.run.offset == SignedValue(Value(of, 16), 4 * |of|)
  {
    DecodeRunReads(parts, i, hd);
    ReadLengthOfText(parts, i + 1, hd.lengthSize);
    if hd.offsetSize > 0 {
      ReadOffsetOfText(parts, i + 1 + hd.lengthSize, hd.offsetSize);
    }
  }

  lemma {:induction false} ConcatAppend(ts: seq<string>, t: string)
    ensures Concat(ts + [t]) == Concat(ts) + t
    decreases |ts|
  {
    if ts == [] {
      assert [] + [t] == [t];
      assert Concat([t]) == t + Concat([]);
    } else {
      ConcatAppend(ts[1..], t);
      assert (ts + [t])[1..] == ts[1..] + [t];
    }
  }

  /** A field of byte tokens, reversed and read as one hexadecimal number,
      is the little-endian value of its bytes. */
  lemma {:induction false} FieldIsLittleEndian(ts: seq<string>)
    requires AreByteTokens(ts)
    ensures var h := Concat(Reverse(ts));
      && |h| == 2 * |ts|
      && IsNumeral(h, 16)
      && Value(h, 16) == LittleEndian(ts)
    decreases |ts|
  {
    if ts != [] {
      var rest := ts[1..];
      FieldIsLittleEndian(rest);
      var h' := Concat(Reverse(rest));
      assert Reverse(ts) == Reverse(rest) + [ts[0]];
      ConcatAppend(Reverse(rest), ts[0]);
      ValueAppend(h', ts[0], 16);
      assert Pow(16, 2) == 256;
      ByteTokenValue(ts[0]);
      assert LittleEndian(ts) == Value(ts[0], 16) + 256 * LittleEndian(rest);
      assert Value(h' + ts[0], 16) == Value(h', 16) * 256 + Value(ts[0], 16);
    }
  }

  /** Among byte tokens, a field that starts before the end of the list and
      is not empty is a byte field. */
  lemma {:induction false} ByteField(parts: seq<string>, lo: nat, hi: nat)
    requires lo < hi && lo < |parts| && AreByteTokens(parts)
    ensures IsByteField(parts, lo, hi)
  {
    var ts := Slice(parts, lo, hi);
    forall k | 0 <= k < |ts|
      ensures IsByteToken(ts[k])
    {
      assert ts[k] == parts[lo + k];
    }
  }

  /** A byte field, reversed and joined, is a numeral of two digits per
      token read whose value is the little-endian value of those tokens. */
  lemma {:induction false} ByteFieldValue(parts: seq<string>, at: nat, width: nat)
    requires IsByteField(parts, at, at + width)
    ensures var bytes := Slice(parts, at, at + width);
      && Field(parts, at, width) != []
      && |Field(parts, at, width)| == 2 * |bytes|
      && IsNumeral(Field(parts, at, width), 16)
      && Value(Field(parts, at, width), 16) == LittleEndian(bytes)
  {
    FieldIsLittleEndian(Slice(parts, at, at + width));
  }
}

=== FILE: encoder.dfy ===
/** The inverse of the decoder: laying runs out as byte tokens.

    The tool itself only decodes; this module writes the encoding the
    decoder expects (header token with the offset width first, length
    little-endian, offset as a two's-complement little-endian field) so that
    the decoder can be stated as its left inverse.
 */
module Encoder {
  import opened Results
  import opened Numerals
  import opened Tokens
  import opened SignedOffset
  import opened Decoder

  /** A run together with the widths, in bytes, of its two fields. */
  datatype Layout = Layout(run: Run, lengthSize: nat, offsetSize: nat)

  /** The widths fit in a header nibble, the length field is not empty,
      the length fits its field, and the offset fits its field as a
      two's-complement number (or is 0 when the field is absent). */
  predicate Encodable(e: Layout) {
    && 1 <= e.lengthSize < 16
    && e.offsetSize < 16
    && e.run.length < Pow(256, e.lengthSize)
    && (e.offsetSize == 0 ==> e.run.offset == 0)
    && (e.offsetSize > 0 ==>
          -(Pow(2, 8 * e.offsetSize - 1) as int) <= e.run.offset < Pow(2, 8 * e.offsetSize - 1))
  }

  predicate AllEncodable(es: seq<Layout>) {
    forall k | 0 <= k < |es| :: Encodable(es[k])
  }

  /** The two upper-case hexadecimal digits of a byte. */
  function ByteToken(b: nat): (t: string)
    requires b < 256
    ensures IsByteToken(t) && ByteValue(t) == b
  {
    [DigitChar(b / 16), DigitChar(b % 16)]
  }

  /** The header token: the offset width's digit, then the length width's. */
  function HeaderToken(offsetSize: nat, lengthSize: nat): (t: string)
    requires offsetSize < 16 && lengthSize < 16
    ensures IsByteToken(t)
    ensures ParseHeader(t) == Ok(Header(offsetSize, lengthSize))
  {
    var t := [DigitChar(offsetSize), DigitChar(lengthSize)];
    ParseHeaderSpec(t);
    t
  }

  /** The `w` bytes of `v`, least significant first. */
  function LEBytes(v: nat, w: nat): (ts: seq<string>)
    requires v < Pow(256, w)
    ensures |ts| == w && AreByteTokens(ts)
  {
    if w == 0 then []
    else
      DivMod(v, 256);
      QuotientBelow(v, 256, Pow(256, w - 1));
      [ByteToken(v % 256)] + LEBytes(v / 256, w - 1)
  }

  lemma QuotientBelow(v: nat, base: nat, m: nat)
    requires base >= 2 && v < base * m
    ensures v / base < m
  {
    DivMod(v, base);
    if v / base >= m {
      MulLeft(base, m, v / base);
    }
  }

  /** The offset's bit pattern in its field: its residue modulo 256^w. */
  function RawOffset(e: Layout): (raw: nat)
    requires Encodable(e)
    ensures raw < Pow(256, e.offsetSize)
  {
    PowBytes(e.offsetSize);
    if e.offsetSize == 0 then 0
    else
      SignedValueOfResidue(e.run.offset, 8 * e.offsetSize);
      e.run.offset % Pow(256, e.offsetSize)
  }

  /** The tokens of one run: header, length field, offset field. */
  function EncodeRun(e: Layout): (ts: seq<string>)
    requires Encodable(e)
    ensures |ts| == 1 + e.lengthSize + e.offsetSize
    ensures AreByteTokens(ts)
  {
    [HeaderToken(e.offsetSize, e.lengthSize)]
      + LEBytes(e.run.length, e.lengthSize)
      + LEBytes(RawOffset(e), e.offsetSize)
  }

  /** The tokens of a run list, one run after the other. */
  function EncodeTokens(es: seq<Layout>): (ts: seq<string>)
    requires AllEncodable(es)
    ensures AreByteTokens(ts)
    ensures es != [] ==> |ts| >= 2
  {
    if es == [] then []
    else
      var ts := EncodeRun(es[0]) + EncodeTokens(es[1..]);
      BytesAppend(EncodeRun(es[0]), EncodeTokens(es[1..]));
      ts
  }

  /** The runs of a run list, without their layouts. */
  function Runs(es: seq<Layout>): (rs: seq<Run>)
    ensures |rs| == |es|
  {
    if es == [] then [] else [es[0].run] + Runs(es[1..])
  }

  lemma {:induction false} BytesAppend(a: seq<string>, b: seq<string>)
    requires AreByteTokens(a) && AreByteTokens(b)
    ensures AreByteTokens(a + b)
  {
    forall k | 0 <= k < |a + b|
      ensures IsByteToken((a + b)[k])
    {
      if k >= |a| {
        assert (a + b)[k] == b[k - |a|];
      }
    }
  }

  /** The little-endian reading of `LEBytes(v, w)` gives `v` back. */
  lemma {:induction false} LEBytesValue(v: nat, w: nat)
    requires v < Pow(256, w)
    ensures LittleEndian(LEBytes(v, w)) == v
    decreases w
  {
    if w > 0 {
      var ts := LEBytes(v, w);
      DivMod(v, 256);
      QuotientBelow(v, 256, Pow(256, w - 1));
      LEBytesValue(v / 256, w - 1);
      assert ts[1..] == LEBytes(v / 256, w - 1);
    }
  }

  /** The middle piece of three is the slice between the others. */
  lemma {:induction false} SliceMiddle(a: seq<string>, b: seq<string>, c: seq<string>)
    ensures Slice(a + b + c, |a|, |a| + |b|) == b
  {
    assert (a + b + c)[|a|..|a| + |b|] == b;
  }

  /** A length field holding `LEBytes(v, w)` reads back as `v`. */
  lemma {:induction false} LengthRead(parts: seq<string>, lo: nat, v: nat, w: nat)
    requires w >= 1 && v < Pow(256, w) && Slice(parts, lo, lo + w) == LEBytes(v, w)
    ensures ReadLength(parts, lo, w) == Ok(v)
  {
    LEBytesValue(v, w);
    ReadLengthSpec(parts, lo, w);
  }

  /** An offset field holding the residue of the offset reads back as the
      offset; an absent one reads as 0, which is the offset then. */
  lemma {:induction false} OffsetRead(parts: seq<string>, lo: nat, e: Layout)
    requires Encodable(e)
    requires Slice(parts, lo, lo + e.offsetSize) == LEBytes(RawOffset(e), e.offsetSize)
    ensures ReadOffset(parts, lo, e.offsetSize) == Ok(e.run.offset)
  {
    ReadOffsetSpec(parts, lo, e.offsetSize);
    if e.offsetSize > 0 {
      LEBytesValue(RawOffset(e), e.offsetSize);
      PowBytes(e.offsetSize);
      SignedValueOfResidue(e.run.offset, 8 * e.offsetSize);
    }
  }

  /** Where the pieces of one run's tokens sit among the tokens around it. */
  lemma {:induction false} Pieces(parts: seq<string>, p: seq<string>, h: string, lengthBytes: seq<string>,
                                  offsetBytes: seq<string>, rest: seq<string>)
    requires parts == p + ([h] + lengthBytes + offsetBytes) + rest
    ensures |p| < |parts| && parts[|p|] == h
    ensures Slice(parts, |p| + 1, |p| + 1 + |lengthBytes|) == lengthBytes
    ensures Slice(parts, |p| + 1 + |lengthBytes|, |p| + 1 + |lengthBytes| + |offsetBytes|) == offsetBytes
  {
    assert parts == (p + [h]) + lengthBytes + (offsetBytes + rest);
    SliceMiddle(p + [h], lengthBytes, offsetBytes + rest);
    assert parts == (p + [h] + lengthBytes) + offsetBytes + rest;
    SliceMiddle(p + [h] + lengthBytes, offsetBytes, rest);
  }

  /** The three fields of one encoded run, whatever precedes and follows
      it, read back as its widths, its length and its offset. */
  lemma {:induction false} EncodedFields(parts: seq<string>, p: seq<string>, e: Layout, rest: seq<string>)
    requires Encodable(e) && parts == p + EncodeRun(e) + rest
    ensures |p| < |parts| && ParseHeader(parts[|p|]) == Ok(Header(e.offsetSize, e.lengthSize))
    ensures ReadLength(parts, |p| + 1, e.lengthSize) == Ok(e.run.length)
    ensures ReadOffset(parts, |p| + 1 + e.lengthSize, e.offsetSize) == Ok(e.run.offset)
  {
    EncodedPieces(parts, p, e, rest);
    LengthRead(parts, |p| + 1, e.run.length, e.lengthSize);
    OffsetRead(parts, |p| + 1 + e.lengthSize, e);
  }

  /** Where the header and the two fields of one encoded run sit. */
  lemma {:induction false} EncodedPieces(parts: seq<string>, p: seq<string>, e: Layout, rest: seq<string>)
    requires Encodable(e) && parts == p + EncodeRun(e) + rest
    ensures |p| < |parts| && parts[|p|] == HeaderToken(e.offsetSize, e.lengthSize)
    ensures Slice(parts, |p| + 1, |p| + 1 + e.lengthSize) == LEBytes(e.run.length, e.lengthSize)
    ensures Slice(parts, |p| + 1 + e.lengthSize, |p| + 1 + e.lengthSize + e.offsetSize)
      == LEBytes(RawOffset(e), e.offsetSize)
  {
    Pieces(parts, p, HeaderToken(e.offsetSize, e.lengthSize), LEBytes(e.run.length, e.lengthSize),
           LEBytes(RawOffset(e), e.offsetSize), rest);
  }

  /** The encoding of a run list, after any prefix, is decoded from the
      prefix's end as exactly the list's runs. */
  lemma {:induction false} EncodedDecodes(parts: seq<string>, p: seq<string>, es: seq<Layout>)
    requires AllEncodable(es) && parts == p + EncodeTokens(es)
    ensures DecodeFrom(parts, |p|) == Ok(Runs(es))
    decreases |es|
  {
    if es == [] {
      assert parts == p;
    } else {
      var e := es[0];
      var head := EncodeRun(e);
      var tail := EncodeTokens(es[1..]);
      Regroup3(parts, p, head, tail);
      EncodedFields(parts, p, e, tail);
      DecodeRunOfReads(parts, |p|, e.offsetSize, e.lengthSize, e.run, |p + head|);
      AllEncodableTail(es);
      EncodedDecodes(parts, p + head, es[1..]);
      DecodeFromStep(parts, |p|, Step(e.run, |p + head|), Runs(es[1..]));
    }
  }

  lemma Regroup3<T>(s: seq<T>, a: seq<T>, b: seq<T>, c: seq<T>)
    requires s == a + (b + c)
    ensures s == a + b + c
  {
  }

  lemma AllEncodableTail(es: seq<Layout>)
    requires es != [] && AllEncodable(es)
    ensures Encodable(es[0]) && AllEncodable(es[1..])
  {
    forall k | 0 <= k < |es| - 1
      ensures Encodable(es[1..][k])
    {
      assert es[1..][k] == es[k + 1];
    }
  }

  /** The round trip: decoding the tokens of a run list gives the runs back. */
  lemma {:induction false} RoundTrip(es: seq<Layout>)
    requires AllEncodable(es)
    ensures DecodeFrom(EncodeTokens(es), 0) == Ok(Runs(es))
  {
    assert [] + EncodeTokens(es) == EncodeTokens(es);
    EncodedDecodes(EncodeTokens(es), [], es);
  }

  lemma {:induction false} ByteTokensHaveNoSpace(ts: seq<string>)
    requires AreByteTokens(ts)
    ensures forall k | 0 <= k < |ts| :: ' ' !in ts[k] && |ts[k]| == 2
  {
    forall k | 0 <= k < |ts|
      ensures ' ' !in ts[k]
    {
      assert IsHexDigit(ts[k][0]) && IsHexDigit(ts[k][1]);
    }
  }

  /** The round trip through text: a non-empty run list, written as
      space-separated tokens or as one contiguous hex string, decodes to
      itself. */
  lemma {:induction false} DecodeEncodedText(es: seq<Layout>)
    requires es != [] && AllEncodable(es)
    ensures Decode(Join(EncodeTokens(es))) == Ok(Runs(es))
    ensures Decode(Concat(EncodeTokens(es))) == Ok(Runs(es))
  {
    var ts := EncodeTokens(es);
    ByteTokensHaveNoSpace(ts);
    RoundTrip(es);
    JoinHasSpace(ts);
    SpacedTokens(Join(ts));
    SplitJoin(ts);
    ConcatNoSpace(ts);
    ChunksOfPairs(ts);
    ContiguousTokens(Concat(ts));
  }
}

=== FILE: numerals.dfy ===
/** Positional numerals: Python's `int(s, base)` on digit strings and the
    digit strings produced by `bin(v)[2:]` and `format(v, 'X')`.

    Only the bases the data-run tool uses (2 and 16) matter; digits are the
    ASCII hexadecimal digits in either case, and a digit is valid in `base`
    when its value is below `base`.
 */
module Numerals {
  import opened Results

  function Pow(b: nat, e: nat): (p: nat)
    ensures b >= 1 ==> p >= 1
  {
    if e == 0 then 1 else b * Pow(b, e - 1)
  }

  lemma MulGrow(b: nat, x: nat)
    requires b >= 1
    ensures x <= b * x
  {
  }

  lemma MulSwap(a: int, x: int, y: int)
    ensures a * (x * y) == x * (a * y)
  {
  }

  lemma MulLeft(c: nat, x: int, y: int)
    requires x <= y
    ensures c * x <= c * y
  {
  }

  /** Appending a digit `d` to a numeral below `p` stays below `base * p`. */
  lemma DigitStep(v: nat, d: nat, base: nat, p: nat)
    requires v < p && d < base
    ensures v * base + d < base * p
  {
    MulLeft(base, v, p - 1);
    assert base * (p - 1) == base * p - base;
  }

  /** Euclidean division by a base of at least 2. */
  lemma DivMod(v: nat, base: nat)
    requires base >= 2
    ensures v == base * (v / base) + v % base
    ensures 0 <= v % base < base
    ensures v >= base ==> 1 <= v / base < v
  {
  }

  lemma Regroup(x: int, p: int, y: int, d: int, base: int)
    ensures (x * p + y) * base + d == x * (base * p) + (y * base + d)
  {
    MulSwap(base, x, p);
  }

  lemma {:induction false} PowAdd(b: nat, m: nat, n: nat)
    ensures Pow(b, m + n) == Pow(b, m) * Pow(b, n)
    decreases n
  {
    if n > 0 {
      PowAdd(b, m, n - 1);
      assert Pow(b, m + n) == b * Pow(b, m + n - 1);
      assert Pow(b, n) == b * Pow(b, n - 1);
      MulSwap(b, Pow(b, m), Pow(b, n - 1));
    }
  }

  lemma {:induction false} PowMonotone(b: nat, m: nat, n: nat)
    requires b >= 1 && m <= n
    ensures Pow(b, m) <= Pow(b, n)
    decreases n
  {
    if m < n {
      PowMonotone(b, m, n - 1);
      assert Pow(b, n) == b * Pow(b, n - 1);
      MulGrow(b, Pow(b, n - 1));
    }
  }

  /** A power below another power of the same base has the smaller exponent. */
  lemma PowBelow(b: nat, m: nat, n: nat)
    requires b >= 1 && Pow(b, m) < Pow(b, n)
    ensures m < n
  {
    if n <= m {
      PowMonotone(b, n, m);
    }
  }

  /** Four binary digits make one hexadecimal digit: 2^(4n) == 16^n. */
  lemma {:induction false} PowNibbles(n: nat)
    ensures Pow(2, 4 * n) == Pow(16, n)
    decreases n
  {
    if n > 0 {
      PowNibbles(n - 1);
      PowAdd(2, 4 * (n - 1), 4);
      assert Pow(2, 4) == 16;
      assert Pow(16, n) == 16 * Pow(16, n - 1);
    }
  }

  /** Two hexadecimal digits make one byte: 256^w == 16^(2w) == 2^(8w). */
  lemma {:induction false} PowBytes(w: nat)
    ensures Pow(256, w) == Pow(16, 2 * w) == Pow(2, 8 * w)
    decreases w
  {
    PowNibbles(2 * w);
    if w > 0 {
      PowBytes(w - 1);
      PowAdd(16, 2 * (w - 1), 2);
      assert Pow(16, 2) == 256;
      assert Pow(256, w) == 256 * Pow(256, w - 1);
    }
  }

  predicate IsHexDigit(c: char) {
    '0' <= c <= '9' || 'a' <= c <= 'f' || 'A' <= c <= 'F'
  }

  function DigitValue(c: char): (d: nat)
    requires IsHexDigit(c)
    ensures d < 16
    ensures d < 10 <==> '0' <= c <= '9'
  {
    if '0' <= c <= '9' then c as int - '0' as int
    else if 'a' <= c <= 'f' then c as int - 'a' as int + 10
    else c as int - 'A' as int + 10
  }

  /** The upper-case digit that `bin` and `format(_, 'X')` print for `d`. */
  function DigitChar(d: nat): (c: char)
    requires d < 16
    ensures IsHexDigit(c) && DigitValue(c) == d
    ensures '0' <= c <= '9' || 'A' <= c <= 'F'
  {
    if d < 10 then ('0' as int + d) as char else ('A' as int + d - 10) as char
  }

  predicate IsDigitOf(c: char, base: nat) {
    IsHexDigit(c) && DigitValue(c) < base
  }

  predicate IsNumeral(s: string, base: nat) {
    forall k | 0 <= k < |s| :: IsDigitOf(s[k], base)
  }

  /** Digits without lower-case letters, as `format(_, 'X')` prints them. */
  predicate IsUpperCase(s: string) {
    forall k | 0 <= k < |s| :: '0' <= s[k] <= '9' || 'A' <= s[k] <= 'F'
  }

  /** The value of a digit string, most significant digit first. */
  function Value(s: string, base: nat): nat
    requires IsNumeral(s, base)
    decreases |s|
  {
    if s == [] then 0 else Value(s[..|s| - 1], base) * base + DigitValue(s[|s| - 1])
  }

  /** The binary digits are `'0'` and `'1'`. */
  lemma BinaryDigit(c: char)
    requires IsDigitOf(c, 2)
    ensures c == '0' || c == '1'
  {
  }

  /** A one-digit numeral is worth its digit. */
  lemma ValueOfDigit(c: char, base: nat)
    requires IsDigitOf(c, base)
    ensures IsNumeral([c], base) && Value([c], base) == DigitValue(c)
  {
    assert [c][..0] == [];
  }

  /** A numeral of `n` digits is below `base^n`. */
  lemma {:induction false} ValueBound(s: string, base: nat)
    requires IsNumeral(s, base)
    ensures Value(s, base) < Pow(base, |s|)
    decreases |s|
  {
    if s != [] {
      ValueBound(s[..|s| - 1], base);
      DigitStep(Value(s[..|s| - 1], base), DigitValue(s[|s| - 1]), base, Pow(base, |s| - 1));
    }
  }

  /** Two numerals side by side form one numeral. */
  lemma NumeralAppend(a: string, b: string, base: nat)
    requires IsNumeral(a, base) && IsNumeral(b, base)
    ensures IsNumeral(a + b, base)
  {
    var ab := a + b;
    forall k | 0 <= k < |ab|
      ensures IsDigitOf(ab[k], base)
    {
      if k >= |a| {
        assert ab[k] == b[k - |a|];
      }
    }
  }

  /** The value of a concatenation: the left numeral is shifted by one
      power of the base per digit of the right one. */
  lemma {:induction false} ValueAppend(a: string, b: string, base: nat)
    requires IsNumeral(a, base) && IsNumeral(b, base)
    ensures IsNumeral(a + b, base)
    ensures Value(a + b, base) == Value(a, base) * Pow(base, |b|) + Value(b, base)
    decreases |b|
  {
    NumeralAppend(a, b, base);
    if b == [] {
      assert a + b == a;
    } else {
      var b' := b[..|b| - 1];
      ValueAppend(a, b', base);
      var ab := a + b;
      assert ab[..|ab| - 1] == a + b' && ab[|ab| - 1] == b[|b| - 1];
      var x, p, y, d := Value(a, base), Pow(base, |b'|), Value(b', base), DigitValue(b[|b| - 1]);
      assert Value(ab, base) == (x * p + y) * base + d;
      assert Value(b, base) == y * base + d;
      assert Pow(base, |b|) == base * p;
      Regroup(x, p, y, d, base);
    }
  }

  function Zeros(n: nat): (z: string)
    ensures |z| == n
    ensures forall k | 0 <= k < n :: z[k] == '0'
  {
    seq(n, _ => '0')
  }

  /** Leading zeros do not change a numeral's value. */
  lemma {:induction false} LeadingZeros(n: nat, s: string, base: nat)
    requires base >= 1 && IsNumeral(s, base)
    ensures IsNumeral(Zeros(n) + s, base)
    ensures Value(Zeros(n) + s, base) == Value(s, base)
    decreases n
  {
    assert IsNumeral(Zeros(n), base);
    ValueAppend(Zeros(n), s, base);
    if n > 0 {
      LeadingZeros(n - 1, [], base);
      assert Zeros(n)[..n - 1] == Zeros(n - 1);
      assert Zeros(n - 1) + [] == Zeros(n - 1);
      assert Value(Zeros(n), base) == Value(Zeros(n - 1), base) * base;
    }
  }

  /** Python's `int(s, base)` for a string of ASCII digits. */
  function ParseInt(s: string, base: nat): Result<nat> {
    if s == [] then Err(EmptyLiteral)
    else if !IsNumeral(s, base) then Err(InvalidLiteral)
    else Ok(Value(s, base))
  }

  /** The shortest digit string of `v`: `bin(v)[2:]` for base 2 and
      `format(v, 'X')` for base 16. */
  function ToDigits(v: nat, base: nat): (s: string)
    requires 2 <= base <= 16
    ensures |s| >= 1 && IsNumeral(s, base) && IsUpperCase(s)
    decreases v
  {
    if v < base then [DigitChar(v)]
    else
      DivMod(v, base);
      var s' := ToDigits(v / base, base);
      var s := s' + [DigitChar(v % base)];
      assert forall k | 0 <= k < |s'| :: s[k] == s'[k];
      s
  }

  /** Reading `ToDigits` back gives `v`. */
  lemma {:induction false} ToDigitsValue(v: nat, base: nat)
    requires 2 <= base <= 16
    ensures Value(ToDigits(v, base), base) == v
    decreases v
  {
    var s := ToDigits(v, base);
    if v < base {
      ValueOfDigit(DigitChar(v), base);
    } else {
      DivMod(v, base);
      var q, r := v / base, v % base;
      ToDigitsValue(q, base);
      var s' := ToDigits(q, base);
      assert s == s' + [DigitChar(r)];
      assert s[..|s| - 1] == s' && s[|s| - 1] == DigitChar(r);
      assert Value(s, base) == Value(s', base) * base + r;
      assert q * base == base * q;
    }
  }

  /** `ToDigits` has no leading zero and exactly as many digits as `v` needs:
      one digit below `base`, and otherwise `base^(n-1) <= v` for `n` digits. */
  lemma {:induction false} ToDigitsShape(v: nat, base: nat)
    requires 2 <= base <= 16
    ensures var s := ToDigits(v, base);
      && (|s| == 1 <==> v < base)
      && (|s| > 1 ==> s[0] != '0')
      && (v > 0 ==> Pow(base, |s| - 1) <= v)
    decreases v
  {
    if v >= base {
      DivMod(v, base);
      var q := v / base;
      ToDigitsShape(q, base);
      var s, s' := ToDigits(v, base), ToDigits(q, base);
      assert s[0] == s'[0];
      if |s'| == 1 {
        assert s'[0] == DigitChar(q);
      }
      assert Pow(base, |s| - 1) == base * Pow(base, |s'| - 1);
      MulLeft(base, Pow(base, |s'| - 1), q);
    }
  }

  /** Python's `format(n, 'X')`: a minus sign for negative numbers, then the
      upper-case digits of the magnitude. */
  function FormatHex(n: int): (s: string)
    ensures n >= 0 ==> ParseInt(s, 16) == Ok(n) && IsUpperCase(s)
    ensures n < 0 ==> |s| >= 2 && s[0] == '-' && ParseInt(s[1..], 16) == Ok(-n) && IsUpperCase(s[1..])
    ensures |s| > 1 && s[0] != '-' ==> s[0] != '0'
    ensures n < 0 && |s| > 2 ==> s[1] != '0'
  {
    if n < 0 then
      ToDigitsValue(-n, 16);
      ToDigitsShape(-n, 16);
      var s := "-" + ToDigits(-n, 16);
      assert s[1..] == ToDigits(-n, 16);
      s
    else
      ToDigitsValue(n, 16);
      ToDigitsShape(n, 16);
      ToDigits(n, 16)
  }
}

=== FILE: resolver.dfy ===
/** `calculate_start_end_points`: turning decoded runs into byte ranges on
    the volume.

    Each run's offset is relative to the previous run's LCN (logical cluster
    number), except the first, which is taken as it is. The byte range of a
    run starts at `C * LCN` and covers `C * length` bytes, where `C` is the
    cluster size, 4096 unless the `-c` option says otherwise; the model
    takes it as a parameter.
 */
module Resolver {
  import opened Numerals
  import opened Decoder

  /** One entry of the result list: the 1-based run number, the first and
      last byte of the run, and the run's absolute LCN. The two hexadecimal
      fields of the entry are the `format(_, 'X')` texts of the two bounds. */
  datatype Extent = Extent(runNumber: nat, startDec: int, endDec: int, lcn: int)
  {
    /** The first byte in upper-case hexadecimal. */
    function StartHex(): string {
      FormatHex(startDec)
    }

    /** The last byte in upper-case hexadecimal. */
    function EndHex(): string {
      FormatHex(endDec)
    }
  }

  /** The absolute LCN of the last of `runs`: the sum of all their offsets. */
  function OffsetSum(runs: seq<Run>): int {
    if runs == [] then 0 else OffsetSum(runs[..|runs| - 1]) + runs[|runs| - 1].offset
  }

  /** The entry for a run that lies at `lcn` and is the `number`-th one. */
  function Locate(run: Run, lcn: int, number: nat, c: int): (x: Extent)
    ensures x.runNumber == number && x.lcn == lcn
    ensures x.startDec == c * lcn
    ensures x.endDec - x.startDec + 1 == c * run.length
  {
    var start := c * lcn;
    Extent(number, start, start + c * run.length - 1, lcn)
  }

  /** The result list of `calculate_start_end_points(runs)` with cluster
      size `c`, one entry appended per run. */
  function Resolve(runs: seq<Run>, c: int): (r: seq<Extent>)
    ensures |r| == |runs|
  {
    if runs == [] then []
    else Resolve(runs[..|runs| - 1], c) + [Locate(runs[|runs| - 1], OffsetSum(runs), |runs|, c)]
  }

  /** The `k`-th entry is numbered `k + 1` and lies at the sum of the
      offsets of the runs up to and including the `k`-th. */
  lemma {:induction false} ResolveAt(runs: seq<Run>, c: int, k: nat)
    requires k < |runs|
    ensures Resolve(runs, c)[k] == Locate(runs[k], OffsetSum(runs[..k + 1]), k + 1, c)
    decreases |runs|
  {
    var init := runs[..|runs| - 1];
    if k == |runs| - 1 {
      assert runs[..k + 1] == runs;
    } else {
      ResolveAt(init, c, k);
      assert init[..k + 1] == runs[..k + 1];
    }
  }

  /** The loop of `calculate_start_end_points`, with its two ways of moving
      the LCN: the first run sets it, every later one adds to it. */
  method CalculateStartEndPoints(runs: seq<Run>, c: int) returns (results: seq<Extent>)
    ensures |results| == |runs|
    ensures forall k | 0 <= k < |runs| ::
      && results[k].runNumber == k + 1
      && results[k].lcn == OffsetSum(runs[..k + 1])
      && results[k].startDec == c * results[k].lcn
      && results[k].endDec - results[k].startDec + 1 == c * runs[k].length
    ensures results == Resolve(runs, c)
  {
    var lcn := 0;
    results := [];
    for i := 0 to |runs|
      invariant lcn == OffsetSum(runs[..i])
      invariant results == Resolve(runs[..i], c)
    {
      var run := runs[i];
      if |results| > 0 {
        lcn := lcn + run.offset;
      } else {
        lcn := run.offset;
      }
      ResolveStep(runs, i, c);
      results := results + [Locate(run, lcn, |results| + 1, c)];
    }
    assert runs[..|runs|] == runs;
    forall k | 0 <= k < |runs|
      ensures results[k] == Locate(runs[k], OffsetSum(runs[..k + 1]), k + 1, c)
    {
      ResolveAt(runs, c, k);
    }
  }

  lemma ResolveStep(runs: seq<Run>, i: nat, c: int)
    requires i < |runs|
    ensures OffsetSum(runs[..i + 1]) == OffsetSum(runs[..i]) + runs[i].offset
    ensures i == 0 ==> OffsetSum(runs[..i + 1]) == runs[i].offset
    ensures Resolve(runs[..i + 1], c) == Resolve(runs[..i], c) + [Locate(runs[i], OffsetSum(runs[..i + 1]), i + 1, c)]
  {
    assert runs[..i + 1][..i] == runs[..i];
    assert runs[..0] == [];
  }

  /** Consecutive entries: the first entry's LCN is the first offset, and
      each later LCN is the previous one plus the run's offset. */
  lemma {:induction false} ResolveChain(runs: seq<Run>, c: int, k: nat)
    requires k < |runs|
    ensures k == 0 ==> Resolve(runs, c)[0].lcn == runs[0].offset
    ensures k > 0 ==> Resolve(runs, c)[k].lcn == Resolve(runs, c)[k - 1].lcn + runs[k].offset
  {
    ResolveAt(runs, c, k);
    if k == 0 {
      assert runs[..1][..0] == [];
    } else {
      ResolveAt(runs, c, k - 1);
      assert runs[..k + 1][..k] == runs[..k];
    }
  }

  /** Resolving more runs leaves the entries already produced unchanged. */
  lemma {:induction false} ResolvePrefix(runs: seq<Run>, more: seq<Run>, c: int)
    ensures Resolve(runs + more, c)[..|runs|] == Resolve(runs, c)
  {
    var all := runs + more;
    forall k | 0 <= k < |runs|
      ensures Resolve(all, c)[k] == Resolve(runs, c)[k]
    {
      ResolveAt(all, c, k);
      ResolveAt(runs, c, k);
      assert all[..k + 1] == runs[..k + 1];
    }
  }
}

=== FILE: results.dfy ===
/** Failure values of the data-run decoder.

    The decoder raises only the two exceptions Python's built-ins raise on
    bad input; each becomes a constructor of `Error`, and every decoding step
    returns a `Result` so that `:-` propagates the first failure and discards
    the runs decoded so far, as an uncaught exception does.
 */
module Results {

  datatype Error =
    /** `IndexError`: the header token has fewer than two characters. */
    | IndexOutOfRange
    /** `ValueError`: `int('', 16)`, a field that ended up with no digits. */
    | EmptyLiteral
    /** `ValueError`: a character that is not a digit of the base. */
    | InvalidLiteral

  datatype Result<+T> = Ok(value: T) | Err(error: Error) {

    predicate IsFailure() {
      Err?
    }

    function PropagateFailure<U>(): Result<U>
      requires Err?
    {
      Err(error)
    }

    function Extract(): T
      requires Ok?
    {
      value
    }
  }
}

=== FILE: scenarios.dfy ===
/** Worked inputs: what the decoder makes of a few run lists, spaced and
    contiguous, including the ones whose outcome is a quirk of the code. */
module Scenarios {
  import opened Results
  import opened Numerals
  import opened Tokens
  import opened SignedOffset
  import opened Decoder
  import opened Resolver

  /** Spaced text made of at least two space-free tokens splits back into
      them. */
  lemma SpacedTokensOf(ts: seq<string>)
    requires |ts| >= 2 && forall k | 0 <= k < |ts| :: ' ' !in ts[k]
    ensures TokensOf(Join(ts)) == ts
  {
    JoinHasSpace(ts);
    SplitJoin(ts);
  }

  /** Contiguous text made of two-character tokens is cut back into them. */
  lemma PairedTokensOf(ts: seq<string>)
    requires ts != [] && forall k | 0 <= k < |ts| :: |ts[k]| == 2 && ' ' !in ts[k]
    ensures TokensOf(Concat(ts)) == ts
  {
    ConcatNoSpace(ts);
    ChunksOfPairs(ts);
    ContiguousTokens(Concat(ts));
  }

  /** One iteration whose fields reach (or pass) the end of the list is the
      whole decoding. */
  lemma {:induction false} OneRun(parts: seq<string>, hd: Header, run: Run)
    requires parts != [] && ParseHeader(parts[0]) == Ok(hd)
    requires ReadLength(parts, 1, hd.lengthSize) == Ok(run.length)
    requires ReadOffset(parts, 1 + hd.lengthSize, hd.offsetSize) == Ok(run.offset)
    requires 1 + hd.lengthSize + hd.offsetSize >= |parts|
    ensures DecodeFrom(parts, 0) == Ok([run])
  {
    var next := 1 + hd.lengthSize + hd.offsetSize;
    DecodeRunOfReads(parts, 0, hd.offsetSize, hd.lengthSize, run, next);
    assert DecodeFrom(parts, next) == Ok([]);
    DecodeFromStep(parts, 0, Step(run, next), []);
    assert [run] + [] == [run];
  }

  lemma Pow15()
    ensures Pow(2, 15) == 32768
  {
    assert Pow(16, 3) == 4096;
    PowNibbles(3);
    PowAdd(2, 12, 3);
  }

  lemma Length18(parts: seq<string>)
    requires |parts| >= 2 && parts[1] == "18"
    ensures ReadLength(parts, 1, 1) == Ok(24)
  {
    assert Slice(parts, 1, 2) == ["18"];
    ReadLengthSpec(parts, 1, 1);
  }

  lemma Offset3456(parts: seq<string>)
    requires |parts| >= 4 && parts[2] == "34" && parts[3] == "56"
    ensures ReadOffset(parts, 2, 2) == Ok(22068)
  {
    assert Slice(parts, 2, 4) == ["34", "56"];
    ReadOffsetSpec(parts, 2, 2);
    assert LittleEndian(["34", "56"]) == 22068;
    Pow15();
  }

  /** `21 18 34 56`: header `21` announces one length byte and two offset
      bytes; the run is 0x18 clusters long at LCN 0x5634. */
  lemma Run2118(parts: seq<string>)
    requires |parts| >= 4 && parts[..4] == ["21", "18", "34", "56"]
    ensures DecodeRun(parts, 0) == Ok(Step(Run(24, 22068), 4))
  {
    assert parts[0] == "21" && parts[1] == "18" && parts[2] == "34" && parts[3] == "56";
    ParseHeaderSpec("21");
    Length18(parts);
    Offset3456(parts);
    DecodeRunOfReads(parts, 0, 2, 1, Run(24, 22068), 4);
  }

  lemma Tokens2118()
    ensures TokensOf("21 18 34 56") == ["21", "18", "34", "56"]
    ensures TokensOf("21183456") == ["21", "18", "34", "56"]
  {
    var ts := ["21", "18", "34", "56"];
    assert Join(ts) == "21 18 34 56";
    SpacedTokensOf(ts);
    assert Concat(ts) == "21183456";
    PairedTokensOf(ts);
  }

  lemma From2118(parts: seq<string>)
    requires parts == ["21", "18", "34", "56"]
    ensures DecodeFrom(parts, 0) == Ok([Run(24, 22068)])
  {
    Run2118(parts);
    assert DecodeFrom(parts, 4) == Ok([]);
    DecodeFromStep(parts, 0, Step(Run(24, 22068), 4), []);
    assert [Run(24, 22068)] + [] == [Run(24, 22068)];
  }

  /** The same run list, spaced or contiguous. */
  lemma SpacedRun()
    ensures Decode("21 18 34 56") == Ok([Run(24, 22068)])
    ensures Decode("21183456") == Ok([Run(24, 22068)])
  {
    Tokens2118();
    From2118(["21", "18", "34", "56"]);
  }

  lemma OffsetFF(parts: seq<string>, at: nat, width: nat)
    requires at + 1 == |parts| && parts[at] == "FF" && width >= 1
    ensures ReadOffset(parts, at, width) == Ok(-1)
  {
    assert Slice(parts, at, at + width)[0] == "FF";
    assert Slice(parts, at, at + width) == ["FF"];
    ReadOffsetSpec(parts, at, width);
    assert LittleEndian(["FF"]) == 255;
    assert Pow(2, 7) == 128 && Pow(2, 8) == 256;
  }

  lemma Length05(parts: seq<string>)
    requires |parts| >= 2 && parts[1] == "05"
    ensures ReadLength(parts, 1, 1) == Ok(5)
  {
    assert Slice(parts, 1, 2) == ["05"];
    ReadLengthSpec(parts, 1, 1);
  }

  lemma From05FF(parts: seq<string>, h: string, offsetSize: nat)
    requires parts == [h, "05", "FF"] && offsetSize >= 1
    requires ParseHeader(h) == Ok(Header(offsetSize, 1))
    ensures DecodeFrom(parts, 0) == Ok([Run(5, -1)])
  {
    Length05(parts);
    OffsetFF(parts, 2, offsetSize);
    OneRun(parts, Header(offsetSize, 1), Run(5, -1));
  }

  /** `11 05 FF`: a one-byte offset with the top bit set moves the LCN back
      by one. */
  lemma NegativeOffset()
    ensures Decode("11 05 FF") == Ok([Run(5, -1)])
  {
    var ts := ["11", "05", "FF"];
    assert Join(ts) == "11 05 FF";
    SpacedTokensOf(ts);
    ParseHeaderSpec("11");
    From05FF(ts, "11", 1);
  }

  /** `31 05 FF`: the header announces three offset bytes but only one is
      left; the slice is cut short and the offset is read from the one byte
      there is. */
  lemma ClippedOffset()
    ensures Decode("31 05 FF") == Ok([Run(5, -1)])
  {
    var ts := ["31", "05", "FF"];
    assert Join(ts) == "31 05 FF";
    SpacedTokensOf(ts);
    ParseHeaderSpec("31");
    From05FF(ts, "31", 3);
  }

  lemma Tokens1105F()
    ensures TokensOf("1105F") == ["11", "05", "F"]
  {
    var s := "1105F";
    ContiguousTokens(s);
    var c := Chunks(s);
    assert c[0] == "11" && c[1] == "05" && c[2] == "F";
  }

  lemma OffsetF(parts: seq<string>)
    requires |parts| == 3 && parts[2] == "F"
    ensures ReadOffset(parts, 2, 1) == Ok(-1)
  {
    assert Field(parts, 2, 1) == "F" by {
      assert Slice(parts, 2, 3) == ["F"];
    }
    assert ReadOffset(parts, 2, 1) == Ok(SignedValue(Value("F", 16), 4)) by {
      ReadOffsetOfText(parts, 2, 1);
    }
    assert Value("F", 16) == 15;
    assert Pow(2, 3) == 8 && Pow(2, 4) == 16;
  }

  lemma From1105F(parts: seq<string>)
    requires parts == ["11", "05", "F"]
    ensures DecodeFrom(parts, 0) == Ok([Run(5, -1)])
  {
    ParseHeaderSpec("11");
    Length05(parts);
    OffsetF(parts);
    OneRun(parts, Header(1, 1), Run(5, -1));
  }

  /** `1105F`: contiguous text of odd length leaves a one-character last
      token; the offset `F` is read at four bits, so its sign bit is set and
      the offset is -1, not 15. */
  lemma ShortOffset()
    ensures Decode("1105F") == Ok([Run(5, -1)])
  {
    Tokens1105F();
    From1105F(["11", "05", "F"]);
  }

  lemma From0105(parts: seq<string>)
    requires parts == ["01", "05"]
    ensures DecodeFrom(parts, 0) == Ok([Run(5, 0)])
  {
    ParseHeaderSpec("01");
    Length05(parts);
    ReadOffsetSpec(parts, 2, 0);
    OneRun(parts, Header(0, 1), Run(5, 0));
  }

  /** `01 05`: an offset width of zero is a sparse run at offset 0. */
  lemma SparseRun()
    ensures Decode("01 05") == Ok([Run(5, 0)])
  {
    var ts := ["01", "05"];
    assert Join(ts) == "01 05";
    SpacedTokensOf(ts);
    From0105(ts);
  }

  lemma From2118Zeros(parts: seq<string>)
    requires parts == ["21", "18", "34", "56", "00", "00"]
    ensures DecodeFrom(parts, 0) == Err(EmptyLiteral)
  {
    assert parts[..4] == ["21", "18", "34", "56"];
    Run2118(parts);
    ParseHeaderSpec("00");
    DecodeRunErrors(parts, 4);
    DecodeFromError(parts, 4);
    DecodeFromStep(parts, 0, Step(Run(24, 22068), 4), []);
  }

  /** `21 18 34 56 00 00`: the loop does not stop at a `00` header; it reads
      a length field of width zero, and `int('', 16)` fails. */
  lemma TerminatorFails()
    ensures Decode("21 18 34 56 00 00") == Err(EmptyLiteral)
  {
    var ts := ["21", "18", "34", "56", "00", "00"];
    assert Join(ts) == "21 18 34 56 00 00";
    SpacedTokensOf(ts);
    From2118Zeros(ts);
  }

  /** The run of `21 18 34 56` on a volume of 4096-byte clusters: bytes
      90390528 to 90488831, that is 0x5634000 to 0x564BFFF, and the hex
      fields read back to those bounds. */
  lemma SpacedRunExtent()
    ensures var r := Resolve([Run(24, 22068)], 4096);
      && |r| == 1 && r[0].runNumber == 1 && r[0].lcn == 22068
      && r[0].startDec == 90390528 && r[0].endDec == 90488831
      && ParseInt(r[0].StartHex(), 16) == Ok(90390528)
      && ParseInt(r[0].EndHex(), 16) == Ok(90488831)
  {
    var runs := [Run(24, 22068)];
    ResolveAt(runs, 4096, 0);
    assert runs[..1] == runs;
  }

  /** A second run with a negative offset lies 68 clusters before the
      first: offsets are relative from the second run on. */
  lemma RelativeExtent()
    ensures var r := Resolve([Run(24, 22068), Run(8, -68)], 4096);
      && |r| == 2 && r[1].runNumber == 2 && r[1].lcn == 22000
      && r[1].startDec == 90112000 && r[1].endDec == 90144767
  {
    var runs := [Run(24, 22068), Run(8, -68)];
    ResolveAt(runs, 4096, 0);
    ResolveChain(runs, 4096, 0);
    ResolveAt(runs, 4096, 1);
    ResolveChain(runs, 4096, 1);
  }

  /** From text to byte range: the run decoded from `21 18 34 56`, resolved
      with 4096-byte clusters, is run 1 and covers bytes 90390528 to
      90488831. */
  lemma SpacedRunResolved()
    ensures Decode("21 18 34 56").Ok?
    ensures var r := Resolve(Decode("21 18 34 56").value, 4096);
      && |r| == 1 && r[0].runNumber == 1 && r[0].lcn == 22068
      && r[0].startDec == 90390528 && r[0].endDec == 90488831
  {
    SpacedRun();
    SpacedRunExtent();
  }
}

=== FILE: signed_offset.dfy ===
/** `correct_signed_offset`: reading a hexadecimal field as a two's-complement
    number whose width is four bits per digit actually read.

    The tool does it through text: it prints the value in binary, pads it
    with zeros to the field's width and looks at the first character.
    `CorrectSignedOffset` keeps that route; `SignedValue` is the arithmetic
    reference it is proved equal to.
 */
module SignedOffset {
  import opened Results
  import opened Numerals

  /** Zero-filling a digit string to `width` characters: the string stays at
      the end, only `'0'`s are put in front, and nothing is cut off when it
      is already that wide. */
  function ZFill(s: string, width: nat): (r: string)
    ensures |r| == if |s| >= width then |s| else width
    ensures r[|r| - |s|..] == s
    ensures forall k | 0 <= k < |r| - |s| :: r[k] == '0'
  {
    if |s| >= width then s
    else
      var r := Zeros(width - |s|) + s;
      assert r[|r| - |s|..] == s;
      r
  }

  /** Zero-filling keeps a numeral a numeral of the same value. */
  lemma {:induction false} ZFillValue(s: string, width: nat, base: nat)
    requires base >= 1 && IsNumeral(s, base)
    ensures IsNumeral(ZFill(s, width), base)
    ensures Value(ZFill(s, width), base) == Value(s, base)
  {
    if |s| < width {
      LeadingZeros(width - |s|, s, base);
    }
  }

  /** The two's-complement reading of the `bits`-bit pattern `v`. */
  function SignedValue(v: nat, bits: nat): int
    requires bits >= 1
  {
    if v < Pow(2, bits - 1) then v else v - Pow(2, bits)
  }

  /** A `bits`-bit pattern reads as a number in the signed range of `bits`
      bits, congruent to the pattern modulo 2^bits, and negative exactly when
      the top bit is set. */
  lemma {:induction false} SignedValueRange(v: nat, bits: nat)
    requires bits >= 1 && v < Pow(2, bits)
    ensures var r := SignedValue(v, bits);
      && -(Pow(2, bits - 1) as int) <= r < Pow(2, bits - 1)
      && (v - r) % Pow(2, bits) == 0
      && (r < 0 <==> Pow(2, bits - 1) <= v)
  {
    var m := Pow(2, bits);
    assert m == 2 * Pow(2, bits - 1);
    if v < Pow(2, bits - 1) {
      ModSmall(0, m);
    } else {
      ModMultiple(m);
    }
  }

  lemma ModSmall(x: int, m: int)
    requires 0 <= x < m
    ensures x % m == x
  {
  }

  lemma ModShift(x: int, m: int)
    requires 0 <= x + m < m
    ensures x % m == x + m
  {
  }

  lemma ModMultiple(m: int)
    requires m > 0
    ensures m % m == 0
  {
  }

  /** Encoding then reading back: every `o` in the signed range of `bits`
      bits is the two's-complement reading of its residue modulo 2^bits. */
  lemma {:induction false} SignedValueOfResidue(o: int, bits: nat)
    requires bits >= 1
    requires -(Pow(2, bits - 1) as int) <= o < Pow(2, bits - 1)
    ensures 0 <= o % Pow(2, bits) < Pow(2, bits)
    ensures SignedValue(o % Pow(2, bits), bits) == o
  {
    var m := Pow(2, bits);
    assert m == 2 * Pow(2, bits - 1);
    if o >= 0 {
      ModSmall(o, m);
    } else {
      ModShift(o, m);
    }
  }

  /** What the binary text of `v`, zero-filled to `w` characters, looks
      like: its value is still `v`, and it starts with `'1'` exactly when
      `v` has the top bit of the `w`-bit width set. */
  lemma {:induction false} SignBit(v: nat, w: nat)
    requires w >= 2 && v < Pow(2, w)
    ensures var bits := ZFill(ToDigits(v, 2), w);
      && |bits| == w
      && IsNumeral(bits, 2)
      && Value(bits, 2) == v
      && (bits[0] == '1' <==> Pow(2, w - 1) <= v)
  {
    var b := ToDigits(v, 2);
    ToDigitsValue(v, 2);
    ToDigitsShape(v, 2);
    BinaryFits(v, w);
    ZFillValue(b, w, 2);
    if |b| == w {
      FullWidthBinary(v, w);
    } else {
      PaddedBinary(v, w);
    }
  }

  lemma {:induction false} BinaryFits(v: nat, w: nat)
    requires w >= 1 && v < Pow(2, w)
    ensures |ToDigits(v, 2)| <= w
  {
    var b := ToDigits(v, 2);
    ToDigitsValue(v, 2);
    ToDigitsShape(v, 2);
    if v > 0 {
      PowBelow(2, |b| - 1, w);
    }
  }

  lemma {:induction false} FullWidthBinary(v: nat, w: nat)
    requires w >= 2 && |ToDigits(v, 2)| == w
    ensures ZFill(ToDigits(v, 2), w)[0] == '1'
    ensures Pow(2, w - 1) <= v
  {
    var b := ToDigits(v, 2);
    ToDigitsValue(v, 2);
    ToDigitsShape(v, 2);
    BinaryDigit(b[0]);
    assert ZFill(b, w) == b;
  }

  lemma {:induction false} PaddedBinary(v: nat, w: nat)
    requires w >= 1 && |ToDigits(v, 2)| < w
    ensures ZFill(ToDigits(v, 2), w)[0] == '0'
    ensures v < Pow(2, w - 1)
  {
    var b := ToDigits(v, 2);
    ToDigitsValue(v, 2);
    ToDigitsShape(v, 2);
    ValueBound(b, 2);
    PowMonotone(2, |b|, w - 1);
  }

  /** The rest of `correct_signed_offset` once the hex digits have been
      read: the value's binary text, zero-filled to `w` characters, is
      negative when it starts with `'1'`. */
  function BinaryTwosComplement(v: nat, w: nat): (r: int)
    requires w >= 2 && v < Pow(2, w)
    ensures r == SignedValue(v, w)
  {
    var bits := ZFill(ToDigits(v, 2), w);
    SignBit(v, w);
    var u := ParseInt(bits, 2).value;
    if bits[0] == '1' then -(Pow(2, |bits|) - u) else u
  }

  /** A hexadecimal field read as a two's-complement number of four bits per
      digit: `int('', 16)` and a non-hex digit fail as they do in Python. */
  function SignedField(h: string): Result<int> {
    var v :- ParseInt(h, 16);
    Ok(SignedValue(v, 4 * |h|))
  }

  /** `correct_signed_offset(hex_str)` as written: the value's binary text,
      zero-filled to four characters per hex digit, is negative when it
      starts with `'1'`. It is the arithmetic reading `SignedField` on every
      input, failures included. */
  function CorrectSignedOffset(h: string): (r: Result<int>)
    ensures h == [] ==> r == Err(EmptyLiteral)
    ensures h != [] && !IsNumeral(h, 16) ==> r == Err(InvalidLiteral)
    ensures h != [] && IsNumeral(h, 16) ==> r == Ok(SignedValue(Value(h, 16), 4 * |h|))
    ensures r == SignedField(h)
  {
    var v :- ParseInt(h, 16);
    ValueBound(h, 16);
    PowNibbles(|h|);
    Ok(BinaryTwosComplement(v, 4 * |h|))
  }
}

=== FILE: tokens.dfy ===
/** Turning the data-run text into byte tokens (`preprocess_hex_string` and
    the `split(" ")` that follows it), together with the Python string and
    list primitives the decoder uses: `" ".join`, `"".join`, `[::-1]` and
    slicing that clips at the end of the list.
 */
module Tokens {

  /** The pieces concatenated with no separator. */
  function Concat(ts: seq<string>): (s: string)
    ensures ts == [] ==> s == []
  {
    if ts == [] then [] else ts[0] + Concat(ts[1..])
  }

  /** The pieces concatenated with one space between neighbours. */
  function Join(ts: seq<string>): (s: string)
  {
    if |ts| == 0 then []
    else if |ts| == 1 then ts[0]
    else ts[0] + " " + Join(ts[1..])
  }

  /** `s.split(" ")`: the pieces between single spaces, empty pieces kept. */
  function Split(s: string): (ts: seq<string>)
    ensures |ts| >= 1
    ensures forall k | 0 <= k < |ts| :: ' ' !in ts[k]
    decreases |s|
  {
    if s == [] then [[]]
    else
      var rest := Split(s[1..]);
      if s[0] == ' ' then [[]] + rest
      else [[s[0]] + rest[0]] + rest[1..]
  }

  /** The elements in reverse order. */
  function Reverse<T>(s: seq<T>): (r: seq<T>)
    ensures |r| == |s|
  {
    if s == [] then [] else Reverse(s[1..]) + [s[0]]
  }

  function Clip(k: nat, n: nat): nat {
    if k <= n then k else n
  }

  /** `s[lo:hi]` for `0 <= lo <= hi`: Python clips both bounds at `len(s)`
      instead of raising. */
  function Slice<T>(s: seq<T>, lo: nat, hi: nat): (r: seq<T>)
    requires lo <= hi
    ensures |r| == Clip(hi, |s|) - Clip(lo, |s|)
    ensures hi <= |s| ==> r == s[lo..hi]
    ensures lo >= |s| ==> r == []
    ensures forall k | 0 <= k < |r| :: r[k] == s[lo + k]
  {
    s[Clip(lo, |s|)..Clip(hi, |s|)]
  }

  /** The consecutive two-character pieces of `s`, the last one short when
      `|s|` is odd. */
  function Chunks(s: string): (ts: seq<string>)
    ensures |ts| == (|s| + 1) / 2
  {
    seq((|s| + 1) / 2, k requires 0 <= k < (|s| + 1) / 2 => s[2 * k..Clip(2 * k + 2, |s|)])
  }

  /** Cutting off the first piece leaves the pieces of the rest. */
  lemma ChunksCons(s: string)
    requires |s| > 2
    ensures Chunks(s) == [s[..2]] + Chunks(s[2..])
  {
    var ts, rest := Chunks(s), Chunks(s[2..]);
    assert |ts| == 1 + |rest|;
    assert ts[0] == s[..2];
    forall k | 1 <= k < |ts|
      ensures ts[k] == rest[k - 1]
    {
      var hi := Clip(2 * k + 2, |s|);
      assert Clip(2 * (k - 1) + 2, |s| - 2) == hi - 2;
      assert s[2..][2 * k - 2..hi - 2] == s[2 * k..hi];
    }
    assert ts == [s[..2]] + rest;
  }

  /** `preprocess_hex_string`: text with a space is taken as already split;
      otherwise it is cut into two-character tokens joined by spaces. */
  function Preprocess(s: string): string {
    if ' ' in s then s else Join(Chunks(s))
  }

  /** The token list the decoder walks: the pre-processed text split at
      every space. */
  function TokensOf(s: string): seq<string> {
    Split(Preprocess(s))
  }

  /** The chunks of a contiguous string are its two-character pieces, in
      order: they concatenate back to it, and only the last may be short. */
  lemma ChunksPartition(s: string)
    ensures Concat(Chunks(s)) == s
    ensures forall k | 0 <= k < |Chunks(s)| :: 1 <= |Chunks(s)[k]| <= 2
    ensures forall k | 0 <= k < |Chunks(s)| - 1 :: |Chunks(s)[k]| == 2
    ensures ' ' !in s ==> forall k | 0 <= k < |Chunks(s)| :: ' ' !in Chunks(s)[k]
  {
    ChunksConcat(s);
    var ts := Chunks(s);
    forall k | 0 <= k < |ts|
      ensures 1 <= |ts[k]| <= 2
      ensures k < |ts| - 1 ==> |ts[k]| == 2
      ensures ' ' !in s ==> ' ' !in ts[k]
    {
      assert ts[k] == s[2 * k..Clip(2 * k + 2, |s|)];
      assert 2 * k < |s|;
      if k < |ts| - 1 {
        assert 2 * k + 2 <= |s|;
      }
      if ' ' !in s {
        assert forall j | 0 <= j < |ts[k]| :: ts[k][j] == s[2 * k + j];
      }
    }
  }

  lemma {:induction false} ChunksConcat(s: string)
    ensures Concat(Chunks(s)) == s
    decreases |s|
  {
    var ts := Chunks(s);
    if |s| > 2 {
      ChunksConcat(s[2..]);
      ChunksCons(s);
      assert ts[0] == s[..2] && ts[1..] == Chunks(s[2..]);
      assert s == s[..2] + s[2..];
    } else if |s| > 0 {
      assert |ts| == 1 && ts[0] == s[0..Clip(2, |s|)] == s;
      assert ts == [s];
      assert Concat(ts) == s + Concat([]);
    }
  }

  /** Splitting undoes joining, for pieces without spaces. */
  lemma {:induction false} SplitJoin(ts: seq<string>)
    requires |ts| >= 1
    requires forall k | 0 <= k < |ts| :: ' ' !in ts[k]
    ensures Split(Join(ts)) == ts
    decreases |ts|
  {
    if |ts| == 1 {
      SplitNoSpace(ts[0]);
    } else {
      SplitJoin(ts[1..]);
      SplitAtSpace(ts[0], Join(ts[1..]));
      assert ts == [ts[0]] + ts[1..];
    }
  }

  /** Joining undoes splitting: every piece of `s.split(" ")` comes back. */
  lemma {:induction false} JoinSplit(s: string)
    ensures Join(Split(s)) == s
    decreases |s|
  {
    if s != [] {
      JoinSplit(s[1..]);
      var rest := Split(s[1..]);
      if s[0] == ' ' {
        var ts := [[]] + rest;
        assert ts[1..] == rest;
        assert Join(ts) == [] + " " + Join(rest);
      } else if |rest| >= 2 {
        var ts := [[s[0]] + rest[0]] + rest[1..];
        assert ts[1..] == rest[1..];
        assert Join(rest) == rest[0] + " " + Join(rest[1..]);
        assert Join(ts) == [s[0]] + rest[0] + " " + Join(rest[1..]);
      }
    }
  }

  lemma {:induction false} SplitNoSpace(a: string)
    requires ' ' !in a
    ensures Split(a) == [a]
    decreases |a|
  {
    if a != [] {
      SplitNoSpace(a[1..]);
      assert [a[0]] + a[1..] == a;
    }
  }

  lemma {:induction false} SplitAtSpace(a: string, b: string)
    requires ' ' !in a
    ensures Split(a + " " + b) == [a] + Split(b)
    decreases |a|
  {
    var s := a + " " + b;
    if a == [] {
      assert s[1..] == b;
    } else {
      assert s[1..] == a[1..] + " " + b;
      SplitAtSpace(a[1..], b);
      assert [a[0]] + a[1..] == a;
    }
  }

  /** A join of two or more pieces contains the separator. */
  lemma JoinHasSpace(ts: seq<string>)
    requires |ts| >= 2
    ensures ' ' in Join(ts)
  {
    assert Join(ts)[|ts[0]|] == ' ';
  }

  /** Text with a space is returned unchanged, and pre-processing twice is
      the same as pre-processing once. */
  lemma PreprocessIdempotent(s: string)
    ensures ' ' in s ==> Preprocess(s) == s
    ensures Preprocess(Preprocess(s)) == Preprocess(s)
  {
    if ' ' !in s {
      var ts := Chunks(s);
      if |ts| >= 2 {
        JoinHasSpace(ts);
      } else {
        ChunksPartition(s);
        if |ts| == 1 {
          assert Concat(ts) == ts[0] + Concat([]);
        }
      }
    }
  }

  /** Contiguous text is tokenised into its two-character chunks; the empty
      text becomes the single empty token that `"".split(" ")` yields. */
  lemma ContiguousTokens(s: string)
    requires ' ' !in s
    ensures TokensOf(s) == if s == [] then [[]] else Chunks(s)
    ensures Concat(TokensOf(s)) == s
  {
    ChunksPartition(s);
    if s != [] {
      SplitJoin(Chunks(s));
    }
  }

  /** Spaced text is split at every space, and the tokens join back to it. */
  lemma SpacedTokens(s: string)
    requires ' ' in s
    ensures TokensOf(s) == Split(s)
    ensures Join(TokensOf(s)) == s
    ensures |TokensOf(s)| >= 2
  {
    JoinSplit(s);
  }

  /** Re-cutting the concatenation of two-character tokens gives them back. */
  lemma {:induction false} ChunksOfPairs(ts: seq<string>)
    requires forall k | 0 <= k < |ts| :: |ts[k]| == 2
    ensures Chunks(Concat(ts)) == ts
    decreases |ts|
  {
    if ts != [] {
      ChunksOfPairs(ts[1..]);
      var s := Concat(ts);
      assert s == ts[0] + Concat(ts[1..]);
      assert s[..2] == ts[0];
      assert s[2..] == Concat(ts[1..]);
      if |ts| == 1 {
        assert s == ts[0];
        assert Chunks(s)[0] == s;
      } else {
        assert |Concat(ts[1..])| > 0 by {
          assert Concat(ts[1..]) == ts[1] + Concat(ts[2..]);
        }
        ChunksCons(s);
      }
    }
  }

  /** Space-free tokens concatenate to space-free text. */
  lemma {:induction false} ConcatNoSpace(ts: seq<string>)
    requires forall k | 0 <= k < |ts| :: ' ' !in ts[k]
    ensures ' ' !in Concat(ts)
    decreases |ts|
  {
    if ts != [] {
      ConcatNoSpace(ts[1..]);
    }
  }
}
